=== FILE: README.md ===
# TwnicDyndn core in Dafny

TwnicDyndn is a dynamic-DNS client for the TWNIC service. It has two parts:

- the console updater, `DyndnUpdater`;
- the WPF configuration window, `DyndnConfig`.

This project models the two pieces of real logic in them and proves what they do.

**The discovery exchange of the updater** (`DyndnClient.Query` and `DyndnClient.Parse`):
- the `102 <user> <password>\r\n` request;
- the parser that turns a reply into `DyndnServer` records. A reply is split into CRLF lines with empty lines dropped. Each line is split on single spaces. `201 host port tcp|udp` lines become servers. A non-empty result replaces the name-server list.
- the loop over the bootstrap servers, with sockets replaced by the outcome of each attempt;
- `Program.Main`'s two bootstrap servers.

The parser's exceptions are modelled, because nothing in the program catches them:
- `tokens[3]` on a short 201 line;
- `int.Parse` on a bad or out-of-range port.

**The password obfuscation of the configuration window** (`Password_PasswordChanged`):
- the 2n + 6 unit buffer;
- the salt digits;
- the key added from a 42-character URL, modulo 2^16;
- the in-place downward split of every keyed slot into a high and a low character.

The algorithm is modelled twice: as sequence methods with loop invariants, and as a reference definition. The two are proved equal. The transform is written for any key stream, and the window's URL is one instance of it.

Files:
- `results.dfy`: `Result` and `Option`.
- `split.dfy`: `String.Split` with a string separator, both with and without `RemoveEmptyEntries`.
- `int32text.dfy`: `Int32.Parse` with `NumberStyles.Integer`, and `Int32.ToString`.
- `protocol.dfy`: the request, `Parse`, and a renderer used as its partner.
- `discovery.dfy`: `Query`, `Open`/`Send`/`Close` as outcomes, and `Main`.
- `password.dfy`: the obfuscation, its structure and its inverse for short passwords.
- `settings.dfy`: what the stored password looks like inside the 102 request.

Three facts about the code that the model keeps:
- Parse does not need a trailing CRLF: a last line without one is parsed (`Protocol.TerminatorOptional`);
- Query tries every bootstrap server, even after one has answered (`Discovery.VisitsAll`);
- the key-stream URL literal has 42 characters.

## Model

| member | source | states |
|---|---|---|
| Splitting.Split | DyndnUpdater/Program.cs:210 | `String.Split` with a string separator, as used on CRLF here and on the space at line 215: always at least one part; JoinSplit, PartsAreSeparatorFree and SplitSeparatorFree together fix the parts of every input |
| Splitting.NonEmpty | DyndnUpdater/Program.cs:210 | RemoveEmptyEntries keeps exactly the non-empty parts: every kept part is non-empty and came from the split, and every non-empty part is kept |
| Splitting.JoinSplit | DyndnUpdater/Program.cs:210 | splitting loses and invents no character: the parts joined with the separator give the input back |
| Splitting.PartsAreSeparatorFree | DyndnUpdater/Program.cs:210 | no part of a split contains the separator |
| Splitting.SplitSeparatorFree | DyndnUpdater/Program.cs:215 | a string without the separator splits into itself alone |
| Splitting.SplitAppend | DyndnUpdater/Program.cs:210 | for a separator with no border, such as CRLF or a space, splitting a + sep + b gives the parts of a followed by the parts of b |
| Splitting.NonEmptyAppend | DyndnUpdater/Program.cs:210 | dropping empty parts distributes over concatenation and keeps the order |
| Splitting.FirstPartIsPrefix | DyndnUpdater/Program.cs:215 | the first part of a split is a prefix of the input |
| Int32Text.ParseInt32 | DyndnUpdater/Program.cs:224 | int.Parse returns a value only within the 32-bit range |
| Int32Text.NoDigitNoNumber | DyndnUpdater/Program.cs:224 | a port text without any decimal digit throws FormatException |
| Int32Text.LeadingWhiteIgnored | DyndnUpdater/Program.cs:224 | leading white space, tab to CR and the space, does not change what int.Parse returns |
| Int32Text.ParsePositive | DyndnUpdater/Program.cs:224 | a string of digits parses to its value when that fits in 32 bits, and throws OverflowException otherwise |
| Int32Text.ParseNegative | DyndnUpdater/Program.cs:233 | a minus sign and digits parse to the negated value, or throw OverflowException below -2^31 |
| Int32Text.ParseDecimal | DyndnUpdater/Program.cs:224 | every 32-bit integer written in decimal parses back to itself |
| Int32Text.DigitsValueOfDigits | DyndnUpdater/Program.cs:224 | the canonical decimal digits of a natural number have that number as their value |
| Protocol.Lines | DyndnUpdater/Program.cs:210 | the CRLF split with empty lines dropped; LinesAppend, TerminatorOptional and BlankLineIgnored state how it treats joined replies, a final CRLF and blank lines |
| Protocol.Tokens | DyndnUpdater/Program.cs:215 | the split on single spaces with empty tokens kept; TokensCons and FormatLineTokens state which tokens a line has |
| Protocol.QueryRequest | DyndnUpdater/Program.cs:253 | the request "102 " + username + " " + password + CRLF; QueryRequestFields states what a bootstrap server reads from it |
| Protocol.QueryRequestFields | DyndnUpdater/Program.cs:253 | for a user name and password without space or CR, the request is the single line "102 user password", and its tokens are exactly 102, the user name and the password |
| Protocol.Discovered | DyndnUpdater/Program.cs:221-235 | the server of a tcp or udp 201 line; DiscoveredDecimal: a host, a 32-bit port written in decimal and a transport are discovered back as exactly that server, and BadPortThrows: a port int.Parse rejects throws that exception |
| Protocol.DiscoveredDecimal | DyndnUpdater/Program.cs:221-235 | a server whose 32-bit port is written in decimal is discovered again with that host, port and transport |
| Protocol.ParseLine | DyndnUpdater/Program.cs:215-241 | a line whose first token is not 201, 202 included, contributes nothing; a 201 line with fewer than four tokens throws; a 201 line with any other fourth token contributes nothing; a server comes only from a 201 line with tcp or udp as fourth token, with host tokens[1] and port int.Parse(tokens[2]), and every such line with a valid port gives one; a tcp or udp line whose port int.Parse rejects throws that exception, and the port is parsed on no other line |
| Protocol.Parse | DyndnUpdater/Program.cs:205-247 | DyndnClient.Parse: every port it returns is a 32-bit integer; ParseRender, ParseAppend, TerminatorOptional, BlankLineIgnored and ParseLinesFirstError pin down which servers it returns, in which order, and which exception it throws |
| Protocol.ParseLines | DyndnUpdater/Program.cs:213-241 | the foreach over the lines; ParseLinesAppend and ParseLinesFirstError state that servers come in line order and the first throwing line decides |
| Protocol.ParseInto | DyndnUpdater/Program.cs:243-246 | the name-server list is replaced wholesale if and only if the reply parsed to at least one server, is kept otherwise, and is not touched when Parse throws |
| Protocol.LinesAppend | DyndnUpdater/Program.cs:210 | the lines of two texts joined by CRLF are the lines of the first followed by the lines of the second |
| Protocol.TokensCons | DyndnUpdater/Program.cs:215 | a word without spaces followed by a space is the first token, and the rest is tokenised on its own |
| Protocol.ParseLinesAppend | DyndnUpdater/Program.cs:213-241 | parsing two blocks of lines gives the servers of the first followed by those of the second, or the first exception met |
| Protocol.ParseAppend | DyndnUpdater/Program.cs:205-241 | servers appear in the order of their lines: the parse of a + CRLF + b is the servers of a then those of b, unless a or b throws |
| Protocol.TerminatorOptional | DyndnUpdater/Program.cs:210 | a trailing CRLF adds nothing, and a last line without one is still parsed |
| Protocol.BlankLineIgnored | DyndnUpdater/Program.cs:210 | an empty line between two lines adds nothing |
| Protocol.ParseLinesFirstError | DyndnUpdater/Program.cs:213-241 | the first line that throws decides the parse, whatever comes after it |
| Protocol.ShortLineThrows | DyndnUpdater/Program.cs:217-219 | a 201 line with only host and port throws on the missing fourth token |
| Protocol.BadPortThrows | DyndnUpdater/Program.cs:219-235 | a tcp or udp line whose port int.Parse rejects throws that same exception out of Parse |
| Protocol.WordPortThrows | DyndnUpdater/Program.cs:224 | a port written as a word throws FormatException |
| Protocol.ParseServerLine | DyndnUpdater/Program.cs:217-236 | a line with the tokens 201, host, port, and tcp or udp gives exactly that server |
| Protocol.FormatLineTokens | DyndnUpdater/Program.cs:215 | the 201 line written for a server splits into exactly its four fields |
| Protocol.ParseFormatLine | DyndnUpdater/Program.cs:217-236 | parsing the 201 line written for a server gives that server back |
| Protocol.ParseRender | DyndnUpdater/Program.cs:205-247 | parsing a reply of 201 lines written for any list of servers with spaceless hosts and 32-bit ports gives the list back, in order |
| Protocol.DiscoveryExample | DyndnUpdater/Program.cs:205-247 | the one-line reply "201 10.0.0.1 1053 udp" followed by CRLF parses to that single UDP server |
| Discovery.Visit | DyndnUpdater/Program.cs:257-267 | one attempt: Send is called only after a successful Open; Close clears the client field afterwards unless Parse threw; without a reply the list is unchanged |
| Discovery.Visits | DyndnUpdater/Program.cs:255-268 | the foreach over the bootstrap servers; VisitsAll, VisitsCrash, VisitsEnding and VisitsSendOnlyRequest state what it attempts, sends and leaves behind |
| Discovery.VisitNameServers | DyndnUpdater/Program.cs:259-266 | an attempt that does not throw ends with the list of its discovery if it had one, and the old list otherwise |
| Discovery.VisitsAll | DyndnUpdater/Program.cs:255-268 | when no reply throws, every server is attempted in order without an early exit, no client field is left set, and the final list is the last non-empty discovery |
| Discovery.VisitsCrash | DyndnUpdater/Program.cs:255-268 | a reply that throws ends the run with that exception: exactly the servers up to it were attempted, and its _tcpClient or _udpClient field stays set because Close is skipped |
| Discovery.VisitsEnding | DyndnUpdater/Program.cs:255-268 | a run crashes if and only if some reply throws, and the attempted servers are always a prefix of the list |
| Discovery.VisitsSendOnlyRequest | DyndnUpdater/Program.cs:253-259 | Send is only ever given the one request built before the loop |
| Discovery.Query | DyndnUpdater/Program.cs:249-268 | DyndnClient.Query attempts a prefix of its servers and hands Send only the 102 request carrying the client's own user name and password |
| Discovery.QueryEffect | DyndnUpdater/Program.cs:249-268 | Query attempts every server in order, sends only the 102 request, leaves no client field set, and ends with the last non-empty discovery |
| Discovery.Start | DyndnUpdater/Program.cs:20-57 | Main queries the two bootstrap servers only when the configuration loaded; the run crashes exactly when a reply throws, otherwise attempts both servers and ends with the last non-empty discovery; every request sent carries the Username and Password read from the configuration |
| Obfuscation.SaltOf | DyndnConfig/MainWindow.xaml.cs:53 | the salt has two decimal digits, 10 to 99, and is congruent to the millisecond plus 10 modulo 90 |
| Obfuscation.KeyLen | DyndnConfig/MainWindow.xaml.cs:52 | the number of keyed slots is the smaller of n + 2 and the key-stream length |
| Obfuscation.Fill | DyndnConfig/MainWindow.xaml.cs:51-61 | the buffer after the first loop holds the salt digits at 0 to 3, the password from slot 4, and NUL after it |
| Obfuscation.KeyIn | DyndnConfig/MainWindow.xaml.cs:63-66 | the key loop shifts exactly slots 2 to len + 1 by their key, modulo 2^16 |
| Obfuscation.Expand | DyndnConfig/MainWindow.xaml.cs:68-72 | the downward in-place loop gives the same buffer as splitting every keyed slot of the untouched middle buffer: it never reads a slot it has overwritten |
| Obfuscation.Obfuscate | DyndnConfig/MainWindow.xaml.cs:43-76 | the handler's three loops compute the reference transform with the window's URL |
| Obfuscation.Transform | DyndnConfig/MainWindow.xaml.cs:51 | the stored text has 2n + 6 units |
| Obfuscation.Key | DyndnConfig/MainWindow.xaml.cs:65 | the key of a slot, the key-stream character minus 0x2F cast to char, so '.' wraps to 0xFFFF; KeyUndone states that subtracting it modulo 2^16 undoes it |
| Obfuscation.High | DyndnConfig/MainWindow.xaml.cs:70 | the high half of a slot; HalvesRange bounds it and UnsplitHalves recovers the slot from both halves |
| Obfuscation.Low | DyndnConfig/MainWindow.xaml.cs:71 | the low half of a slot; HalvesRange bounds it and UnsplitHalves recovers the slot from both halves |
| Obfuscation.ExpandedPair | DyndnConfig/MainWindow.xaml.cs:70-71 | keyed middle slot i + 2 becomes the high half at 2i + 2 and the low half at 2i + 3 |
| Obfuscation.ExpandedKept | DyndnConfig/MainWindow.xaml.cs:68-72 | slots 0 and 1, and every slot from 2 len + 2 on, are not written by the expansion |
| Obfuscation.SaltKept | DyndnConfig/MainWindow.xaml.cs:55-56 | the stored text starts with the two salt digits, and they read back as the salt |
| Obfuscation.HalvesRange | DyndnConfig/MainWindow.xaml.cs:70-71 | a high half lies in 0x4D + salt%32 to 0x4D + salt%32 + 0xFFF, and a low half in 0x21 + salt%32 to 0x30 + salt%32 |
| Obfuscation.ExpandedRanges | DyndnConfig/MainWindow.xaml.cs:70-71 | every expanded pair of the stored text lies in those ranges |
| Obfuscation.ShortFullyExpanded | DyndnConfig/MainWindow.xaml.cs:51-72 | when n + 2 is at most the key-stream length, every slot from 2 on is a half of a keyed middle slot |
| Obfuscation.TailKept | DyndnConfig/MainWindow.xaml.cs:51-72 | slots past the expansion exist only for longer passwords, and keep the password unit or NUL they were filled with |
| Obfuscation.MidAt | DyndnConfig/MainWindow.xaml.cs:58-66 | password unit i sits in middle slot i + 4, shifted by key i + 2 |
| Obfuscation.TransformPair | DyndnConfig/MainWindow.xaml.cs:68-72 | middle slot i + 4 ends up as stored units 2i + 6 and 2i + 7 |
| Obfuscation.UnsplitHalves | DyndnConfig/MainWindow.xaml.cs:70-71 | the two halves of a slot determine it again |
| Obfuscation.KeyUndone | DyndnConfig/MainWindow.xaml.cs:65 | adding a key modulo 2^16, the wrap of '.' included, is undone by subtracting it |
| Obfuscation.PairRecovered | DyndnConfig/MainWindow.xaml.cs:63-72 | a keyed slot's halves give the unit before keying back |
| Obfuscation.UnitRecovered | DyndnConfig/MainWindow.xaml.cs:55-72 | every password unit is recovered from its stored pair and its key |
| Obfuscation.RoundTrip | DyndnConfig/MainWindow.xaml.cs:43-72 | a password at least two units shorter than the key stream is recovered exactly from its stored text, which carries its salt |
| Obfuscation.DeobfuscateRoundTrip | DyndnConfig/MainWindow.xaml.cs:43-76 | the text the window stores for a password of at most 40 units carries its salt and is read back to that password |
| Obfuscation.ShortInjective | DyndnConfig/MainWindow.xaml.cs:43-72 | two such passwords are stored as the same text only for the same password and salt |
| Obfuscation.ShortPrintable | DyndnConfig/MainWindow.xaml.cs:55-72 | every unit of such a stored text lies in 0x21 to 0x106B: no C0 control character, no space, no surrogate; DEL and C1 controls can occur |
| Obfuscation.StoresDel | DyndnConfig/MainWindow.xaml.cs:55-72 | with salt 31 the one-unit password 'ë' is stored with DEL (0x7F) at unit 6, so a stored text can hold a control character above 0x20 |
| Obfuscation.LongCollide | DyndnConfig/MainWindow.xaml.cs:52-72 | a longer password loses every unit j with len - 2 <= j < 2 len - 2: its slot is overwritten by the expansion without being read, so any other unit there gives the same stored text |
| Obfuscation.WindowLoses | DyndnConfig/MainWindow.xaml.cs:45-72 | with the window's URL, units 40 to 81 of a long password do not affect the stored text |
| Settings.StoredPasswordOneToken | DyndnUpdater/Program.cs:253 | the text the window stores for a password of at most 40 units is one token of the 102 request: the request is one line whose tokens are 102, the user name and the stored text |

## Left out

- Socket internals of `Open` and `Send`: `TcpClient` and `UdpClient`, the 3000 ms waits, the single 256-byte read, and `Encoding.Default` decoding of the reply and encoding of the request (DyndnUpdater/Program.cs:161, 184), which maps a stored password's units above 0x7F through the ANSI code page before they reach the wire. Each attempt is an `Exchange`: refused, opened with no reply, or opened with a reply text.
- Exceptions that `Open` and `Send` catch internally. They appear only as the refused and silent outcomes.
- XML configuration loading in `Main`. It is reduced to loaded user name and password, or failure, after which no Query is made.
- The `GetSystemDefaultLangID` P/Invoke, which is never used, and all `Console.WriteLine` logging.
- WPF plumbing: the window's other handlers, `Modified`, `MainViewModel` and property-change notification. `Model.Password = new string(buf)` is the returned sequence.
- `DateTime.Now`: the millisecond is a parameter of `SaltOf`, and the salt is a parameter of the transform.
- Login, Update and Logout messages, the keep-alive loop and reply codes other than 201 and 202. None of these exist in the code modelled.
- Int32Text.ParseInt32: culture-specific sign strings are not modelled. The invariant '+' and '-' are used, as for the invariant and most Western cultures.
- Settings.Text: reading stored units as Dafny characters is stated only below the surrogate range. Dafny's `char` has no surrogate code points, and the stored text of a short password never reaches that range.
- Obfuscation.Recover: an inverse is given only for passwords at least two units shorter than the key stream. A longer password loses its units from |www| - 2 up to 2 |www| - 3: with the window's URL, units 40 to 81 (`Obfuscation.LongCollide`, `Obfuscation.WindowLoses`). Its units from 2 |www| - 2 on are stored unkeyed (`Obfuscation.TailKept`). So no inverse exists for long passwords.
- Discovery.Client: `channel` records whether the `_tcpClient` or `_udpClient` field is still set. It does not record the socket state: for TCP, Send's `using` disposes the stream from `GetStream` (DyndnUpdater/Program.cs:159), which already shuts the connection before Close.

=== FILE: discovery.dfy ===
/** DyndnClient.Query: the 102 request sent to every bootstrap server in
    turn, each reply parsed into the name-server list. The sockets behind
    Open and Send are replaced by the outcome each attempt had. */
module Discovery {
  import opened Results
  import opened Protocol

  /** What one attempt at a bootstrap server came to: Open returned false,
      Open succeeded but Send returned null, or Send returned a reply. */
  datatype Exchange = Refused | Silent | Replied(response: string)

  /** The client fields Query reads and writes. `channel` is the transport of
      the client object still held in the _tcpClient or _udpClient field, if
      any: Close is what closes it and sets the field back to null. For TCP
      the socket itself may already be shut by Send's disposal of its stream;
      the model tracks the field. `nameServers` is None while _nameServers
      is still null. */
  datatype Client = Client(
    username: string,
    password: string,
    servers: seq<Server>,
    nameServers: Option<seq<Server>>,
    channel: Option<Transport>)

  /** How a Query run ended: after the last server, or with the exception
      Parse threw out of Query (nothing in the program catches it). */
  datatype Ending = Finished | Crashed(error: ParseError)

  /** The client after the run, the servers Open was called for, the
      requests handed to Send, and how the run ended. */
  datatype Run = Run(client: Client, attempted: seq<Server>, sent: seq<string>, ending: Ending)

  /** Open(server) followed, when it succeeded, by Send, Parse and Close. */
  function Visit(c: Client, request: string, server: Server, x: Exchange): (r: Run)
    ensures r.attempted == [server]
    ensures r.sent == (if x.Refused? then [] else [request])
    ensures r.ending.Finished? ==> r.client.channel == None
    ensures r.ending.Crashed? ==> r.client.channel == Some(server.transport)
    ensures r.client.servers == c.servers
    ensures !x.Replied? ==> r.client.nameServers == c.nameServers
  {
    match x
    case Refused =>
      Run(c.(channel := None), [server], [], Finished)
    case Silent =>
      Run(c.(channel := None), [server], [request], Finished)
    case Replied(response) =>
      match ParseInto(c.nameServers, response)
      case Err(e) => Run(c.(channel := Some(server.transport)), [server], [request], Crashed(e))
      case Ok(names) => Run(c.(nameServers := names, channel := None), [server], [request], Finished)
  }

  /** The foreach over `servers` with the outcome of each attempt. */
  function Visits(c: Client, request: string, servers: seq<Server>, outcomes: seq<Exchange>): (r: Run)
    requires |outcomes| == |servers|
    decreases |servers|
  {
    if |servers| == 0 then Run(c, [], [], Finished)
    else
      var first := Visit(c, request, servers[0], outcomes[0]);
      if first.ending.Crashed? then first
      else
        var rest := Visits(first.client, request, servers[1..], outcomes[1..]);
        Run(rest.client, first.attempted + rest.attempted, first.sent + rest.sent, rest.ending)
  }

  /** DyndnClient.Query: the request is built once, then every bootstrap
      server is visited. */
  function Query(c: Client, outcomes: seq<Exchange>): (r: Run)
    requires |outcomes| == |c.servers|
    ensures r.attempted <= c.servers
    ensures forall i :: 0 <= i < |r.sent| ==> r.sent[i] == QueryRequest(c.username, c.password)
  {
    VisitsEnding(c, QueryRequest(c.username, c.password), c.servers, outcomes);
    VisitsSendOnlyRequest(c, QueryRequest(c.username, c.password), c.servers, outcomes);
    Visits(c, QueryRequest(c.username, c.password), c.servers, outcomes)
  }

  // ---------------------------------------------------------------------
  // Reference definitions, independent of the loop.

  /** The servers an attempt discovered, if it got a reply that parsed to at
      least one server. */
  function Discovery(x: Exchange): Option<seq<Server>>
  {
    if x.Replied? && Parse(x.response).Ok? && |Parse(x.response).value| > 0
    then Some(Parse(x.response).value)
    else None
  }

  /** The discovery of the last attempt that discovered anything, or the
      initial list when none did. */
  function LastDiscovery(initial: Option<seq<Server>>, outcomes: seq<Exchange>): Option<seq<Server>>
    decreases |outcomes|
  {
    if |outcomes| == 0 then initial
    else
      var last := outcomes[|outcomes| - 1];
      if Discovery(last).Some? then Discovery(last)
      else LastDiscovery(initial, outcomes[..|outcomes| - 1])
  }

  /** An attempt whose reply makes Parse throw. */
  predicate Throws(x: Exchange)
  {
    x.Replied? && Parse(x.response).Err?
  }

  predicate NoneThrows(outcomes: seq<Exchange>)
  {
    forall i :: 0 <= i < |outcomes| ==> !Throws(outcomes[i])
  }

  // ---------------------------------------------------------------------
  // Lemmas

  lemma LastDiscoveryCons(initial: Option<seq<Server>>, x: Exchange, rest: seq<Exchange>)
    ensures LastDiscovery(initial, [x] + rest)
         == LastDiscovery(if Discovery(x).Some? then Discovery(x) else initial, rest)
    decreases |rest|
  {
    var xs := [x] + rest;
    if |rest| == 0 {
      assert xs[..0] == [];
    } else {
      assert xs[|xs| - 1] == rest[|rest| - 1];
      assert xs[..|xs| - 1] == [x] + rest[..|rest| - 1];
      LastDiscoveryCons(initial, x, rest[..|rest| - 1]);
    }
  }

  /** One attempt that does not throw leaves the list as the reference says. */
  lemma VisitNameServers(c: Client, request: string, server: Server, x: Exchange)
    requires !Throws(x)
    ensures Visit(c, request, server, x).ending.Finished?
    ensures Visit(c, request, server, x).client.nameServers
         == (if Discovery(x).Some? then Discovery(x) else c.nameServers)
  {
  }

  /** Every attempt is made, in order, and no client field is left set,
      unless a reply throws. */
  lemma {:induction false} VisitsAll(c: Client, request: string, servers: seq<Server>, outcomes: seq<Exchange>)
    requires |outcomes| == |servers|
    requires NoneThrows(outcomes)
    ensures Visits(c, request, servers, outcomes).ending == Finished
    ensures Visits(c, request, servers, outcomes).attempted == servers
    ensures |servers| > 0 ==> Visits(c, request, servers, outcomes).client.channel == None
    ensures Visits(c, request, servers, outcomes).client.nameServers
         == LastDiscovery(c.nameServers, outcomes)
    decreases |servers|
  {
    if |servers| == 0 {
    } else {
      NoneThrowsCons(outcomes);
      VisitNameServers(c, request, servers[0], outcomes[0]);
      var first := Visit(c, request, servers[0], outcomes[0]);
      VisitsAll(first.client, request, servers[1..], outcomes[1..]);
      LastDiscoveryCons(c.nameServers, outcomes[0], outcomes[1..]);
      assert [outcomes[0]] + outcomes[1..] == outcomes;
      assert [servers[0]] + servers[1..] == servers;
    }
  }

  /** A reply that throws ends the run at that server: the servers before it
      and it have been attempted, nothing after it, and its client field stays
      set because Close is skipped. */
  lemma {:induction false} VisitsCrash(c: Client, request: string, servers: seq<Server>, outcomes: seq<Exchange>, k: nat)
    requires |outcomes| == |servers|
    requires k < |outcomes| && Throws(outcomes[k]) && NoneThrows(outcomes[..k])
    ensures Visits(c, request, servers, outcomes).ending == Crashed(Parse(outcomes[k].response).error)
    ensures Visits(c, request, servers, outcomes).attempted == servers[..k + 1]
    ensures Visits(c, request, servers, outcomes).client.channel == Some(servers[k].transport)
    decreases k
  {
    if k == 0 {
      assert servers[..1] == [servers[0]];
    } else {
      var first := Visit(c, request, servers[0], outcomes[0]);
      NoneThrowsPrefix(outcomes, k);
      VisitsCrash(first.client, request, servers[1..], outcomes[1..], k - 1);
      VisitsCrashStep(c, request, servers, outcomes, k);
    }
  }

  /** The step of VisitsCrash: a first attempt that does not throw puts its
      server in front of the crashed run over the rest. */
  lemma VisitsCrashStep(c: Client, request: string, servers: seq<Server>, outcomes: seq<Exchange>, k: nat)
    requires |outcomes| == |servers| && 0 < k < |outcomes| && !Throws(outcomes[0])
    requires var rest := Visits(Visit(c, request, servers[0], outcomes[0]).client, request, servers[1..], outcomes[1..]);
             rest.ending.Crashed? && rest.attempted == servers[1..][..k]
    ensures var rest := Visits(Visit(c, request, servers[0], outcomes[0]).client, request, servers[1..], outcomes[1..]);
            var run := Visits(c, request, servers, outcomes);
            run.ending == rest.ending && run.client == rest.client && run.attempted == servers[..k + 1]
  {
    var first := Visit(c, request, servers[0], outcomes[0]);
    VisitNameServers(c, request, servers[0], outcomes[0]);
    var rest := Visits(first.client, request, servers[1..], outcomes[1..]);
    assert Visits(c, request, servers, outcomes)
        == Run(rest.client, first.attempted + rest.attempted, first.sent + rest.sent, rest.ending);
    assert [servers[0]] + servers[1..][..k] == servers[..k + 1];
  }

  /** Send is only ever handed the 102 request. */
  lemma {:induction false} VisitsSendOnlyRequest(c: Client, request: string, servers: seq<Server>, outcomes: seq<Exchange>)
    requires |outcomes| == |servers|
    ensures forall i :: 0 <= i < |Visits(c, request, servers, outcomes).sent|
              ==> Visits(c, request, servers, outcomes).sent[i] == request
    decreases |servers|
  {
    if |servers| > 0 {
      var first := Visit(c, request, servers[0], outcomes[0]);
      if first.ending.Finished? {
        VisitsSendOnlyRequest(first.client, request, servers[1..], outcomes[1..]);
      }
    }
  }

  /** The effect of Query on a client: every bootstrap server is tried in
      order, the final list is the last non-empty discovery, and no client
      field remains set. */
  lemma QueryEffect(c: Client, outcomes: seq<Exchange>)
    requires |outcomes| == |c.servers|
    requires NoneThrows(outcomes)
    ensures Query(c, outcomes).ending == Finished
    ensures Query(c, outcomes).attempted == c.servers
    ensures |c.servers| > 0 ==> Query(c, outcomes).client.channel == None
    ensures Query(c, outcomes).client.nameServers == LastDiscovery(c.nameServers, outcomes)
    ensures forall i :: 0 <= i < |Query(c, outcomes).sent|
              ==> Query(c, outcomes).sent[i] == QueryRequest(c.username, c.password)
  {
    VisitsAll(c, QueryRequest(c.username, c.password), c.servers, outcomes);
    VisitsSendOnlyRequest(c, QueryRequest(c.username, c.password), c.servers, outcomes);
  }

  /** A run crashes exactly when some reply throws, and the servers it
      attempted are always a prefix of the list. */
  lemma {:induction false} VisitsEnding(c: Client, request: string, servers: seq<Server>, outcomes: seq<Exchange>)
    requires |outcomes| == |servers|
    ensures Visits(c, request, servers, outcomes).ending.Crashed? <==> !NoneThrows(outcomes)
    ensures Visits(c, request, servers, outcomes).attempted <= servers
    decreases |servers|
  {
    if |servers| > 0 {
      var first := Visit(c, request, servers[0], outcomes[0]);
      if first.ending.Finished? {
        VisitsEnding(first.client, request, servers[1..], outcomes[1..]);
        NoneThrowsCons(outcomes);
        assert [servers[0]] + servers[1..] == servers;
      } else {
        assert Throws(outcomes[0]);
      }
    }
  }

  lemma NoneThrowsPrefix(outcomes: seq<Exchange>, k: nat)
    requires 0 < k < |outcomes| && NoneThrows(outcomes[..k])
    ensures !Throws(outcomes[0])
    ensures outcomes[1..][k - 1] == outcomes[k]
    ensures NoneThrows(outcomes[1..][..k - 1])
  {
    assert outcomes[..k][0] == outcomes[0];
    var before := outcomes[1..][..k - 1];
    forall i | 0 <= i < k - 1 ensures !Throws(before[i]) {
      assert before[i] == outcomes[..k][i + 1];
    }
  }

  lemma NoneThrowsCons(outcomes: seq<Exchange>)
    requires |outcomes| > 0
    ensures NoneThrows(outcomes) <==> !Throws(outcomes[0]) && NoneThrows(outcomes[1..])
  {
    if !Throws(outcomes[0]) && NoneThrows(outcomes[1..]) {
      forall i | 0 < i < |outcomes| ensures !Throws(outcomes[i]) {
        assert outcomes[i] == outcomes[1..][i - 1];
      }
    }
  }

  // ---------------------------------------------------------------------
  // Program.Main

  /** The two bootstrap servers Main installs before calling Query. */
  const Bootstrap: seq<Server> := [
    Server("dyndn1.twnic.net.tw", 1053, Tcp),
    Server("dyndn1.twnic.net.tw", 1053, Udp)
  ]

  /** The outcome of loading the configuration file: its Username and
      Password attributes, or a failure, after which Main returns. */
  datatype Config = Loaded(username: string, password: string) | LoadFailed

  /** Program.Main after the configuration file was read: a fresh client
      queries the bootstrap servers; no Query is made when loading failed. */
  function Start(config: Config, outcomes: seq<Exchange>): (r: Option<Run>)
    requires |outcomes| == |Bootstrap|
    ensures r.None? <==> config.LoadFailed?
    ensures r.Some? ==> 0 < |r.value.attempted| && r.value.attempted <= Bootstrap
    ensures r.Some? ==> (r.value.ending.Crashed? <==> !NoneThrows(outcomes))
    ensures r.Some? && NoneThrows(outcomes) ==>
              && r.value.attempted == Bootstrap
              && r.value.client.channel == None
              && r.value.client.nameServers == LastDiscovery(None, outcomes)
    // every request Send receives carries the loaded credentials
    ensures r.Some? ==>
              forall i :: 0 <= i < |r.value.sent| ==>
                r.value.sent[i] == QueryRequest(config.username, config.password)
  {
    match config
    case LoadFailed => None
    case Loaded(username, password) =>
      var c := Client(username, password, Bootstrap, None, None);
      var request := QueryRequest(username, password);
      VisitsEnding(c, request, Bootstrap, outcomes);
      if NoneThrows(outcomes) then QueryEffect(c, outcomes); Some(Query(c, outcomes))
      else Some(Query(c, outcomes))
  }
}

=== FILE: int32text.dfy ===
/** Int32.Parse(string) with the default NumberStyles.Integer: optional
    leading white space, an optional sign, one or more decimal digits,
    optional trailing white space and trailing NUL characters. Anything else
    throws FormatException; a well-formed number outside the 32-bit range
    throws OverflowException. */
module Int32Text {
  import opened Results

  const MinInt32: int := -0x8000_0000
  const MaxInt32: int := 0x7FFF_FFFF

  predicate IsInt32(n: int)
  {
    MinInt32 <= n <= MaxInt32
  }

  /** The two exceptions Int32.Parse throws for a non-null argument. */
  datatype NumberError = FormatError | OverflowError

  predicate IsDigit(c: char)
  {
    '0' <= c <= '9'
  }

  predicate AllDigits(ds: string)
  {
    forall i :: 0 <= i < |ds| ==> IsDigit(ds[i])
  }

  /** The characters .NET number parsing treats as white space. */
  predicate IsWhite(c: char)
  {
    c == ' ' || '\t' <= c <= '\r'
  }

  /** `s` without its leading white space. */
  function SkipWhite(s: string): string
  {
    if |s| > 0 && IsWhite(s[0]) then SkipWhite(s[1..]) else s
  }

  /** The number of decimal digits at the start of `s`. */
  function DigitRun(s: string): (k: nat)
    ensures k <= |s|
  {
    if |s| > 0 && IsDigit(s[0]) then 1 + DigitRun(s[1..]) else 0
  }

  predicate AllNul(s: string)
  {
    forall i :: 0 <= i < |s| ==> s[i] == '\0'
  }

  /** The value of a string of decimal digits, most significant first. */
  function DigitsValue(ds: string): int
  {
    if |ds| == 0 then 0
    else DigitsValue(ds[..|ds| - 1]) * 10 + (ds[|ds| - 1] as int - '0' as int)
  }

  /** Int32.Parse: the value of the token, or the exception it throws. */
  function ParseInt32(t: string): (r: Result<int, NumberError>)
    ensures r.Ok? ==> IsInt32(r.value)
  {
    var s := SkipWhite(t);
    if |s| > 0 && (s[0] == '-' || s[0] == '+') then ParseUnsigned(s[1..], s[0] == '-')
    else ParseUnsigned(s, false)
  }

  /** A token without a single decimal digit is a FormatException. */
  lemma NoDigitNoNumber(t: string)
    requires forall i :: 0 <= i < |t| ==> !IsDigit(t[i])
    ensures ParseInt32(t) == Err(FormatError)
  {
    var s := SkipWhite(t);
    SkipWhiteSuffix(t);
    assert forall i :: 0 <= i < |s| ==> !IsDigit(s[i]) by {
      forall i | 0 <= i < |s| ensures !IsDigit(s[i]) {
        assert s[i] == t[|t| - |s| + i];
      }
    }
    if |s| > 0 && (s[0] == '-' || s[0] == '+') {
      var u := s[1..];
      if |u| > 0 {
        assert u[0] == s[1];
      }
      UnsignedStartsWithDigit(u, s[0] == '-');
    } else {
      UnsignedStartsWithDigit(s, false);
    }
  }

  /** Leading white space, a tab or a line feed included, does not change
      the result. */
  lemma LeadingWhiteIgnored(c: char, t: string)
    requires IsWhite(c)
    ensures ParseInt32([c] + t) == ParseInt32(t)
  {
    assert ([c] + t)[1..] == t;
  }

  lemma UnsignedStartsWithDigit(u: string, negative: bool)
    ensures ParseUnsigned(u, negative).Ok? ==> |u| > 0 && IsDigit(u[0])
  {
  }

  lemma {:induction false} SkipWhiteSuffix(s: string)
    ensures |SkipWhite(s)| <= |s| && SkipWhite(s) == s[|s| - |SkipWhite(s)|..]
  {
    if |s| > 0 && IsWhite(s[0]) {
      SkipWhiteSuffix(s[1..]);
    }
  }

  /** The part of Int32.Parse after the sign: digits, then only white space
      and NULs. */
  function ParseUnsigned(u: string, negative: bool): (r: Result<int, NumberError>)
    ensures r.Ok? ==> IsInt32(r.value)
  {
    var k := DigitRun(u);
    if k == 0 || !AllNul(SkipWhite(u[k..])) then Err(FormatError)
    else
      Checked(Signed(DigitsValue(u[..k]), negative))
  }

  function Signed(magnitude: int, negative: bool): int
  {
    if negative then -magnitude else magnitude
  }

  /** A value within the 32-bit range, or OverflowException. */
  function Checked(v: int): Result<int, NumberError>
  {
    if IsInt32(v) then Ok(v) else Err(OverflowError)
  }

  function DigitChar(d: nat): (c: char)
    requires d < 10
    ensures IsDigit(c) && c as int - '0' as int == d
  {
    (d + '0' as int) as char
  }

  /** The canonical decimal digits of a natural number. */
  function Digits(n: nat): (ds: string)
    ensures |ds| >= 1 && AllDigits(ds)
  {
    if n < 10 then [DigitChar(n)] else Digits(n / 10) + [DigitChar(n % 10)]
  }

  /** Int32.ToString(): the canonical decimal form, with '-' when negative. */
  function Decimal(n: int): (s: string)
    ensures |s| >= 1
  {
    if n < 0 then "-" + Digits(-n) else Digits(n)
  }

  lemma {:induction false} DigitsValueOfDigits(n: nat)
    ensures DigitsValue(Digits(n)) == n
  {
    if n >= 10 {
      var ds := Digits(n);
      assert ds[..|ds| - 1] == Digits(n / 10);
      DigitsValueOfDigits(n / 10);
    }
  }

  /** Parsing a rendered 32-bit integer gives it back. */
  lemma ParseDecimal(n: int)
    requires IsInt32(n)
    ensures ParseInt32(Decimal(n)) == Ok(n)
  {
    if n < 0 {
      ParseDecimalNegative(n);
    } else {
      ParseDecimalNatural(n);
    }
  }

  lemma ParseDecimalNegative(n: int)
    requires MinInt32 <= n < 0
    ensures ParseInt32("-" + Digits(-n)) == Ok(n)
  {
    var ds := Digits(-n);
    DigitsValueOfDigits(-n);
    assert DigitsValue(ds) == -n;
    ParseNegative(ds);
  }

  lemma ParseDecimalNatural(n: nat)
    requires n <= MaxInt32
    ensures ParseInt32(Digits(n)) == Ok(n)
  {
    var ds := Digits(n);
    DigitsValueOfDigits(n);
    assert DigitsValue(ds) == n;
    ParsePositive(ds);
  }

  /** A minus sign and digits: the negated value, or OverflowException below
      -2^31. */
  lemma ParseNegative(ds: string)
    requires |ds| >= 1 && AllDigits(ds)
    ensures ParseInt32("-" + ds) == Checked(-DigitsValue(ds))
  {
    var s := "-" + ds;
    assert s[0] == '-' && s[1..] == ds;
    assert SkipWhite(s) == s;
    ParseUnsignedDigits(ds, true);
  }

  /** Bare digits: their value, or OverflowException above 2^31 - 1. */
  lemma ParsePositive(ds: string)
    requires |ds| >= 1 && AllDigits(ds)
    ensures ParseInt32(ds) == Checked(DigitsValue(ds))
  {
    assert IsDigit(ds[0]);
    assert SkipWhite(ds) == ds;
    ParseUnsignedDigits(ds, false);
  }

  lemma ParseUnsignedDigits(ds: string, negative: bool)
    requires |ds| >= 1 && AllDigits(ds)
    ensures ParseUnsigned(ds, negative) == Checked(Signed(DigitsValue(ds), negative))
  {
    DigitRunWhole(ds);
  }

  lemma DigitRunWhole(ds: string)
    requires |ds| >= 1 && AllDigits(ds)
    ensures DigitRun(ds) == |ds|
    ensures AllNul(SkipWhite(ds[|ds|..]))
    ensures ds[..|ds|] == ds
  {
    DigitRunAll(ds);
    assert ds[|ds|..] == [];
    assert SkipWhite([]) == [];
  }

  lemma {:induction false} DigitRunAll(ds: string)
    requires AllDigits(ds)
    ensures DigitRun(ds) == |ds|
  {
    if |ds| > 0 {
      DigitRunAll(ds[1..]);
    }
  }
}

=== FILE: password.dfy ===
/** The password obfuscation of the configuration window
    (MainWindow.Password_PasswordChanged): the plain password, read as UTF-16
    code units, becomes the text stored as the Password attribute of the
    Login element and later sent verbatim in the 102 request.

    The transform is written for any key stream `www`; the window uses the
    constant URL `Keystream`. */
module Obfuscation {

  /** A UTF-16 code unit, the element of a C# string and the value of a C#
      char. Surrogate halves are included, so this is not Dafny's char. */
  type CodeUnit = x: int | 0 <= x < 0x1_0000

  /** The salt the window draws: two decimal digits. */
  type Salt = s: int | 10 <= s <= 99 witness 10

  /** The constant URL whose characters form the key stream: 42 characters. */
  const Keystream: string := "http://www.twnic.net.tw/List/List_Regi.htm"

  /** The salt drawn from the millisecond part of the clock. */
  function SaltOf(millisecond: nat): (salt: int)
    requires millisecond < 1000
    ensures 10 <= salt <= 99
    ensures (salt - millisecond) % 90 == 10
  {
    millisecond % 90 + 10
  }

  /** How many buffer slots, from slot 2 on, receive a key:
      min(n + 2, |www|). */
  function KeyLen(n: nat, width: nat): (len: nat)
    ensures len <= n + 2 && len <= width
    ensures len == n + 2 || len == width
  {
    if n + 2 < width then n + 2 else width
  }

  /** The key added to slot i + 2: the key-stream character minus 0x2F, cast
      to a char, so '.' (0x2E) wraps around to 0xFFFF. */
  function Key(www: string, i: nat): CodeUnit
    requires i < |www|
  {
    (www[i] as int - 0x2F) % 0x1_0000
  }

  function Tens(salt: Salt): CodeUnit { salt / 10 + 0x30 }
  function Ones(salt: Salt): CodeUnit { salt % 10 + 0x30 }

  /** The high and low half of a slot after expansion; neither can exceed a
      code unit, so the char casts never wrap. */
  function High(m: CodeUnit, salt: Salt): CodeUnit { m / 16 + salt % 32 + 0x4D }
  function Low(m: CodeUnit, salt: Salt): CodeUnit { m % 16 + salt % 32 + 0x21 }

  /** Slot k of the buffer once the salt digits and the password are in:
      digits at 0..3, the password from slot 4, NUL after it. */
  function BaseAt(p: seq<CodeUnit>, salt: Salt, k: nat): CodeUnit
  {
    if k == 0 || k == 2 then Tens(salt)
    else if k == 1 || k == 3 then Ones(salt)
    else if k < |p| + 4 then p[k - 4]
    else 0
  }

  /** The freshly filled buffer of 2n + 6 slots. */
  function Base(p: seq<CodeUnit>, salt: Salt): (b: seq<CodeUnit>)
    ensures |b| == 2 * |p| + 6
  {
    seq(2 * |p| + 6, k requires 0 <= k => BaseAt(p, salt, k))
  }

  /** The buffer after the key loop: slots 2 .. len + 1 shifted by their
      key, modulo 2^16. */
  function Keyed(www: string, b: seq<CodeUnit>, len: nat): (m: seq<CodeUnit>)
    requires len <= |www| && len + 2 <= |b|
    ensures |m| == |b|
  {
    seq(|b|, k requires 0 <= k < |b| =>
      if 2 <= k < len + 2 then (b[k] + Key(www, k - 2)) % 0x1_0000 else b[k])
  }

  /** The buffer after the expansion loop: every keyed slot j
      (2 <= j < len + 2) split into its high half at 2j - 2 and its low half
      at 2j - 1; the other slots as they were. */
  function Expanded(m: seq<CodeUnit>, salt: Salt, len: nat): (out: seq<CodeUnit>)
    requires 2 * len + 2 <= |m|
    ensures |out| == |m|
  {
    seq(|m|, k requires 0 <= k < |m| =>
      if 2 <= k < 2 * len + 2 then
        (if k % 2 == 0 then High(m[k / 2 + 1], salt) else Low(m[k / 2 + 1], salt))
      else m[k])
  }

  /** The middle buffer: filled, then keyed. */
  function Mid(www: string, p: seq<CodeUnit>, salt: Salt): (m: seq<CodeUnit>)
    ensures |m| == 2 * |p| + 6
  {
    Keyed(www, Base(p, salt), KeyLen(|p|, |www|))
  }

  /** The stored text for a password, a salt and a key stream. */
  function Transform(www: string, p: seq<CodeUnit>, salt: Salt): (out: seq<CodeUnit>)
    ensures |out| == 2 * |p| + 6
  {
    Expanded(Mid(www, p, salt), salt, KeyLen(|p|, |www|))
  }

  /** The stored text the window produces. */
  function Obfuscated(p: seq<CodeUnit>, salt: Salt): (out: seq<CodeUnit>)
    ensures |out| == 2 * |p| + 6
  {
    Transform(Keystream, p, salt)
  }

  // ---------------------------------------------------------------------
  // The event handler's buffer algorithm

  /** Fill: the salt digits twice, then the password from slot 4. */
  method Fill(password: seq<CodeUnit>, salt: Salt) returns (buf: seq<CodeUnit>)
    ensures buf == Base(password, salt)
  {
    var n := |password|;
    buf := seq(2 * n + 6, _ => 0);
    buf := buf[0 := Tens(salt)][2 := Tens(salt)];
    buf := buf[1 := Ones(salt)][3 := Ones(salt)];
    var i := 0;
    while i < n
      invariant 0 <= i <= n && |buf| == 2 * n + 6
      invariant forall k | 0 <= k < |buf| :: buf[k] == if k < i + 4 then Base(password, salt)[k] else 0
    {
      buf := buf[i + 4 := password[i]];
      i := i + 1;
    }
  }

  /** The key loop, in place: slot i + 2 gains key i for every i < len. */
  method KeyIn(www: string, base: seq<CodeUnit>, len: nat) returns (buf: seq<CodeUnit>)
    requires len <= |www| && len + 2 <= |base|
    ensures buf == Keyed(www, base, len)
  {
    buf := base;
    var i := 0;
    while i < len
      invariant 0 <= i <= len && |buf| == |base|
      invariant forall k | 0 <= k < |buf| :: buf[k] == if 2 <= k < i + 2 then Keyed(www, base, len)[k] else base[k]
    {
      buf := buf[i + 2 := (buf[i + 2] + Key(www, i)) % 0x1_0000];
      i := i + 1;
    }
  }

  /** The expansion loop, in place and downwards: slot i + 2 is split into
      slots 2i + 2 and 2i + 3, which lie at or above it and above every slot
      still to be read, so each middle slot is read before it is
      overwritten. */
  method Expand(mid: seq<CodeUnit>, salt: Salt, len: nat) returns (buf: seq<CodeUnit>)
    requires 2 * len + 2 <= |mid|
    ensures buf == Expanded(mid, salt, len)
  {
    buf := mid;
    var i := len;
    while i > 0
      invariant 0 <= i <= len && |buf| == |mid|
      invariant forall k | 0 <= k < |buf| :: buf[k] == if 2 * i + 2 <= k then Expanded(mid, salt, len)[k] else mid[k]
    {
      i := i - 1;
      ExpandedPair(mid, salt, len, i);
      buf := buf[2 * i + 3 := Low(buf[i + 2], salt)];
      buf := buf[2 * i + 2 := High(buf[i + 2], salt)];
    }
    ExpandedKept(mid, salt, len, 0);
    ExpandedKept(mid, salt, len, 1);
  }

  /** The event handler: fill, key with the URL, expand. */
  method Obfuscate(password: seq<CodeUnit>, salt: Salt) returns (out: seq<CodeUnit>)
    ensures out == Obfuscated(password, salt)
  {
    var len := KeyLen(|password|, |Keystream|);
    var base := Fill(password, salt);
    var mid := KeyIn(Keystream, base, len);
    out := Expand(mid, salt, len);
  }

  // ---------------------------------------------------------------------
  // The shape of the stored text

  /** Keyed middle slot i + 2 becomes the pair 2i + 2, 2i + 3. */
  lemma ExpandedPair(m: seq<CodeUnit>, salt: Salt, len: nat, i: nat)
    requires 2 * len + 2 <= |m| && i < len
    ensures Expanded(m, salt, len)[2 * i + 2] == High(m[i + 2], salt)
    ensures Expanded(m, salt, len)[2 * i + 3] == Low(m[i + 2], salt)
  {
    assert (2 * i + 2) / 2 + 1 == i + 2 && (2 * i + 2) % 2 == 0;
    assert (2 * i + 3) / 2 + 1 == i + 2 && (2 * i + 3) % 2 == 1;
  }

  /** Below slot 2 and from slot 2 * len + 2 on, expansion changes nothing. */
  lemma ExpandedKept(m: seq<CodeUnit>, salt: Salt, len: nat, k: nat)
    requires 2 * len + 2 <= |m| && k < |m| && (k < 2 || 2 * len + 2 <= k)
    ensures Expanded(m, salt, len)[k] == m[k]
  {
  }

  /** The two salt digits survive every later step, and read back as the
      salt. */
  lemma SaltKept(www: string, p: seq<CodeUnit>, salt: Salt)
    ensures Transform(www, p, salt)[0] == salt / 10 + 0x30
    ensures Transform(www, p, salt)[1] == salt % 10 + 0x30
    ensures StoredSalt(Transform(www, p, salt)) == salt
  {
    var len := KeyLen(|p|, |www|);
    var m := Mid(www, p, salt);
    ExpandedKept(m, salt, len, 0);
    ExpandedKept(m, salt, len, 1);
  }

  lemma HalvesRange(m: CodeUnit, salt: Salt)
    ensures 0x4D + salt % 32 <= High(m, salt) <= 0x4D + salt % 32 + 0xFFF
    ensures 0x21 + salt % 32 <= Low(m, salt) <= 0x30 + salt % 32
  {
  }

  /** The expanded slots: every high unit lies in
      [0x4D + salt % 32, 0x4D + salt % 32 + 0xFFF] and every low unit in
      [0x21 + salt % 32, 0x30 + salt % 32]. */
  lemma ExpandedRanges(www: string, p: seq<CodeUnit>, salt: Salt, i: nat)
    requires i < KeyLen(|p|, |www|)
    ensures var out := Transform(www, p, salt);
            && 0x4D + salt % 32 <= out[2 * i + 2] <= 0x4D + salt % 32 + 0xFFF
            && 0x21 + salt % 32 <= out[2 * i + 3] <= 0x30 + salt % 32
  {
    var m := Mid(www, p, salt);
    ExpandedPair(m, salt, KeyLen(|p|, |www|), i);
    HalvesRange(m[i + 2], salt);
  }

  /** With a key stream at least two units longer than the password, every
      slot from 2 on is a half of a keyed middle slot. */
  lemma ShortFullyExpanded(www: string, p: seq<CodeUnit>, salt: Salt)
    requires |p| + 2 <= |www|
    ensures var m := Mid(www, p, salt);
            var out := Transform(www, p, salt);
            forall i | 0 <= i < |p| + 2 ::
              out[2 * i + 2] == High(m[i + 2], salt) && out[2 * i + 3] == Low(m[i + 2], salt)
  {
    var m := Mid(www, p, salt);
    forall i | 0 <= i < |p| + 2
      ensures Transform(www, p, salt)[2 * i + 2] == High(m[i + 2], salt)
      ensures Transform(www, p, salt)[2 * i + 3] == Low(m[i + 2], salt)
    {
      ExpandedPair(m, salt, |p| + 2, i);
    }
  }

  /** The slots past the expansion keep their filled values: the password
      units from position 2 * len - 2 on, then NULs. Only a password longer
      than the key stream minus two has such slots. */
  lemma TailKept(www: string, p: seq<CodeUnit>, salt: Salt, k: nat)
    requires 1 <= |www| && 2 * KeyLen(|p|, |www|) + 2 <= k < 2 * |p| + 6
    ensures |p| + 2 > |www|
    ensures Transform(www, p, salt)[k] == if k < |p| + 4 then p[k - 4] else 0
  {
    var len := KeyLen(|p|, |www|);
    ExpandedKept(Mid(www, p, salt), salt, len, k);
  }

  // ---------------------------------------------------------------------
  // What the stored text reveals

  /** The salt a stored text carries in its first two units. */
  function StoredSalt(u: seq<CodeUnit>): int
    requires |u| >= 2
  {
    (u[0] as int - 0x30) * 10 + (u[1] as int - 0x30)
  }

  /** A middle slot rebuilt from its high and low half. */
  function Unsplit(hi: CodeUnit, lo: CodeUnit, salt: Salt): int
  {
    (hi as int - salt % 32 - 0x4D) * 16 + (lo as int - salt % 32 - 0x21)
  }

  /** A password unit from its stored pair and its key: rebuild the middle
      slot, then take the key back off. */
  function Recovered(hi: CodeUnit, lo: CodeUnit, salt: Salt, key: CodeUnit): CodeUnit
  {
    (Unsplit(hi, lo, salt) - key) % 0x1_0000
  }

  /** Unit i of a recovered password, read from pair 2i + 6, 2i + 7 with
      key i + 2. */
  function RecoverAt(www: string, u: seq<CodeUnit>, salt: Salt, i: nat): CodeUnit
    requires 2 * i + 7 < |u| && i + 2 < |www|
  {
    Recovered(u[2 * i + 6], u[2 * i + 7], salt, Key(www, i + 2))
  }

  /** The reverse transform for texts of passwords at least two units
      shorter than the key stream: undo the expansion pair by pair, then the
      keys. */
  function Recover(www: string, u: seq<CodeUnit>): (p: seq<CodeUnit>)
    requires 6 <= |u| <= 2 * (|www| - 2) + 6 && |u| % 2 == 0
    requires 10 <= StoredSalt(u) <= 99
    ensures 2 * |p| + 6 == |u|
  {
    var n := (|u| - 6) / 2;
    seq(n, i requires 0 <= i < n => RecoverAt(www, u, StoredSalt(u), i))
  }

  /** The reverse transform for the window's key stream. */
  function Deobfuscate(u: seq<CodeUnit>): (p: seq<CodeUnit>)
    requires 6 <= |u| <= 2 * (|Keystream| - 2) + 6 && |u| % 2 == 0
    requires 10 <= StoredSalt(u) <= 99
    ensures 2 * |p| + 6 == |u|
  {
    Recover(Keystream, u)
  }

  /** The window's stored text of a password of up to 40 units is read back
      to that password. */
  lemma DeobfuscateRoundTrip(p: seq<CodeUnit>, salt: Salt)
    requires |p| + 2 <= |Keystream|
    ensures var u := Obfuscated(p, salt);
            && |u| == 2 * |p| + 6 <= 2 * (|Keystream| - 2) + 6 && |u| % 2 == 0
            && 10 <= StoredSalt(u) <= 99
            && Deobfuscate(u) == p
  {
    EvenLength(p, salt);
    RoundTrip(Keystream, p, salt);
  }

  lemma EvenLength(p: seq<CodeUnit>, salt: Salt)
    ensures |Obfuscated(p, salt)| % 2 == 0
  {
    assert |Obfuscated(p, salt)| == 2 * (|p| + 3);
  }

  lemma UnsplitHalves(m: CodeUnit, salt: Salt)
    ensures Unsplit(High(m, salt), Low(m, salt), salt) == m
  {
  }

  lemma KeyUndone(a: CodeUnit, key: CodeUnit)
    ensures ((a + key) % 0x1_0000 - key) % 0x1_0000 == a
  {
    if a + key >= 0x1_0000 {
      assert (a + key) % 0x1_0000 == a + key - 0x1_0000;
    }
  }

  /** A middle slot keyed from unit a gives a back from its two halves. */
  lemma PairRecovered(m: CodeUnit, salt: Salt, key: CodeUnit, a: CodeUnit)
    requires m == (a + key) % 0x1_0000
    ensures Recovered(High(m, salt), Low(m, salt), salt, key) == a
  {
    UnsplitHalves(m, salt);
    KeyUndone(a, key);
  }

  /** Password unit i sits keyed in middle slot i + 4. */
  lemma MidAt(www: string, p: seq<CodeUnit>, salt: Salt, i: nat)
    requires i < |p| && |p| + 2 <= |www|
    ensures Mid(www, p, salt)[i + 4] == (p[i] + Key(www, i + 2)) % 0x1_0000
  {
    assert Base(p, salt)[i + 4] == p[i];
  }

  /** Middle slot i + 4 is split into stored units 2i + 6 and 2i + 7. */
  lemma TransformPair(www: string, p: seq<CodeUnit>, salt: Salt, i: nat)
    requires i < |p| && |p| + 2 <= |www|
    ensures Transform(www, p, salt)[2 * i + 6] == High(Mid(www, p, salt)[i + 4], salt)
    ensures Transform(www, p, salt)[2 * i + 7] == Low(Mid(www, p, salt)[i + 4], salt)
  {
    TransformShort(www, p, salt);
    ExpandedUnitPair(Mid(www, p, salt), salt, |p| + 2, i);
  }

  lemma TransformShort(www: string, p: seq<CodeUnit>, salt: Salt)
    requires |p| + 2 <= |www|
    ensures Transform(www, p, salt) == Expanded(Mid(www, p, salt), salt, |p| + 2)
  {
    assert KeyLen(|p|, |www|) == |p| + 2;
  }

  /** ExpandedPair indexed by password unit: the slot i + 4 that holds
      password unit i lands in units 2i + 6 and 2i + 7. */
  lemma ExpandedUnitPair(m: seq<CodeUnit>, salt: Salt, len: nat, i: nat)
    requires 2 * len + 2 <= |m| && i + 4 < len + 2
    ensures Expanded(m, salt, len)[2 * i + 6] == High(m[i + 4], salt)
    ensures Expanded(m, salt, len)[2 * i + 7] == Low(m[i + 4], salt)
  {
    assert (2 * i + 6) / 2 + 1 == i + 4 && (2 * i + 6) % 2 == 0;
    assert (2 * i + 7) / 2 + 1 == i + 4 && (2 * i + 7) % 2 == 1;
  }

  /** One password unit comes back out of its pair. */
  lemma UnitRecovered(www: string, p: seq<CodeUnit>, salt: Salt, i: nat)
    requires i < |p| && |p| + 2 <= |www|
    ensures RecoverAt(www, Transform(www, p, salt), salt, i) == p[i]
  {
    var m := Mid(www, p, salt)[i + 4];
    MidAt(www, p, salt, i);
    TransformPair(www, p, salt, i);
    PairRecovered(m, salt, Key(www, i + 2), p[i]);
  }

  /** Passwords at least two units shorter than the key stream are
      recovered exactly from their stored text. */
  lemma RoundTrip(www: string, p: seq<CodeUnit>, salt: Salt)
    requires |p| + 2 <= |www|
    ensures var u := Transform(www, p, salt);
            && 10 <= StoredSalt(u) <= 99
            && Recover(www, u) == p
  {
    var u := Transform(www, p, salt);
    SaltKept(www, p, salt);
    var q := Recover(www, u);
    assert |q| == |p|;
    forall i | 0 <= i < |p| ensures q[i] == p[i] {
      assert q[i] == RecoverAt(www, u, salt, i);
      UnitRecovered(www, p, salt, i);
    }
  }

  /** Hence two stored texts of such passwords are equal only for the same
      password and the same salt. */
  lemma ShortInjective(www: string, p: seq<CodeUnit>, q: seq<CodeUnit>, s: Salt, t: Salt)
    requires |p| + 2 <= |www| && |q| + 2 <= |www|
    requires Transform(www, p, s) == Transform(www, q, t)
    ensures p == q && s == t
  {
    RoundTrip(www, p, s);
    RoundTrip(www, q, t);
    SaltKept(www, p, s);
    SaltKept(www, q, t);
  }

  /** The stored text of such a password has no C0 control unit, no space,
      and nothing near the surrogate range. DEL and the C1 controls are not
      excluded (see StoresDel). */
  lemma ShortPrintable(www: string, p: seq<CodeUnit>, salt: Salt)
    requires |p| + 2 <= |www|
    ensures forall k | 0 <= k < |Transform(www, p, salt)| :: 0x21 <= Transform(www, p, salt)[k] <= 0x106B
  {
    var out := Transform(www, p, salt);
    forall k | 0 <= k < |out| ensures 0x21 <= out[k] <= 0x106B {
      if k < 2 {
        SaltKept(www, p, salt);
      } else {
        var i := (k - 2) / 2;
        ExpandedRanges(www, p, salt, i);
        assert k == 2 * i + 2 || k == 2 * i + 3;
      }
    }
  }

  /** A longer password loses every unit j with |www| - 2 <= j < 2|www| - 2:
      the middle slot j + 4 holding it lies past the keyed slots, so the
      expansion overwrites it without reading it, and any other unit there
      gives the same stored text. */
  lemma LongCollide(www: string, p: seq<CodeUnit>, j: nat, x: CodeUnit, salt: Salt)
    requires 2 <= |www| < |p| + 2
    requires |www| - 2 <= j < |p| && j < 2 * |www| - 2
    ensures Transform(www, p, salt) == Transform(www, p[j := x], salt)
  {
    var q := p[j := x];
    var len := |www|;
    var bp, bq := Base(p, salt), Base(q, salt);
    assert forall k | 0 <= k < |bp| && k != j + 4 :: bp[k] == bq[k];
    var mp, mq := Mid(www, p, salt), Mid(www, q, salt);
    assert forall k | 0 <= k < |mp| && k != j + 4 :: mp[k] == mq[k];
    var op, oq := Transform(www, p, salt), Transform(www, q, salt);
    forall k | 0 <= k < |op| ensures op[k] == oq[k] {
      if 2 <= k < 2 * len + 2 {
        assert k / 2 + 1 < j + 4;
      } else {
        assert k != j + 4;
        ExpandedKept(mp, salt, len, k);
        ExpandedKept(mq, salt, len, k);
      }
    }
  }

  /** With salt 31, 'ë' as a one-unit password is stored with DEL as its
      first high half: key 't' - 0x2F = 0x45 makes slot 4 hold 0x130. */
  lemma StoresDel()
    ensures Obfuscated([0xEB], 31)[6] == 0x7F
  {
    KeystreamThird();
    DelAfterT(Keystream);
  }

  lemma KeystreamThird()
    ensures Keystream[2] == 't'
  {
  }

  lemma DelAfterT(www: string)
    requires |www| >= 3 && www[2] == 't'
    ensures Transform(www, [0xEB], 31)[6] == 0x7F
  {
    MidAt(www, [0xEB], 31, 0);
    TransformPair(www, [0xEB], 31, 0);
    assert Key(www, 2) == 0x45;
    assert High(0x130, 31) == 0x7F;
  }

  /** For example, with the window's URL every unit from 40 to 81 of a
      password of 82 units or more is lost. */
  lemma WindowLoses(p: seq<CodeUnit>, j: nat, x: CodeUnit, salt: Salt)
    requires 40 <= j < |p| && j < 82
    ensures Obfuscated(p, salt) == Obfuscated(p[j := x], salt)
  {
    LongCollide(Keystream, p, j, x, salt);
  }
}

=== FILE: protocol.dfy ===
/** The wire side of DyndnClient: the 102 discovery request and the parser
    that turns a provider reply into name servers. */
module Protocol {
  import opened Results
  import opened Splitting
  import opened Int32Text

  /** The two values of System.Net.Sockets.ProtocolType the client uses. */
  datatype Transport = Tcp | Udp

  /** DyndnServer: a value, compared by its fields. */
  datatype Server = Server(host: string, port: int, transport: Transport)

  const CRLF: string := "\r\n"
  const Space: string := " "

  /** The exceptions Parse lets escape: tokens[3] past the end of a short
      201 line (IndexOutOfRangeException), or int.Parse rejecting the port. */
  datatype ParseError = MissingToken | BadPort(cause: NumberError)

  /** The 102 request DyndnClient.Query sends to every bootstrap server. */
  function QueryRequest(username: string, password: string): string
  {
    "102 " + username + " " + password + CRLF
  }

  /** The lines of a response: split on CRLF, empty segments dropped. */
  function Lines(response: string): seq<string>
  {
    NonEmpty(Split(response, CRLF))
  }

  /** The tokens of a line: split on single spaces, empty tokens kept. */
  function Tokens(line: string): seq<string>
  {
    Split(line, Space)
  }

  /** The lower-case name a 201 line uses for a transport. */
  function TransportName(t: Transport): string
  {
    match t
    case Tcp => "tcp"
    case Udp => "udp"
  }

  /** The server a 201 line announces, once its transport is known. */
  function Discovered(host: string, portText: string, t: Transport): Result<Option<Server>, ParseError>
  {
    match ParseInt32(portText)
    case Err(e) => Err(BadPort(e))
    case Ok(port) => Ok(Some(Server(host, port, t)))
  }

  /** The server written with its port in decimal is discovered again, for
      every 32-bit port. */
  lemma DiscoveredDecimal(host: string, port: int, t: Transport)
    requires IsInt32(port)
    ensures Discovered(host, Decimal(port), t) == Ok(Some(Server(host, port, t)))
  {
    ParseDecimal(port);
  }

  /** What one line contributes: a server, nothing, or the exception. */
  function ParseLine(line: string): (r: Result<Option<Server>, ParseError>)
    // only a 201 line can contribute or fail; 202 and every other code is ignored
    ensures Tokens(line)[0] != "201" ==> r == Ok(None)
    // a short 201 line fails on its missing fourth token
    ensures Tokens(line)[0] == "201" && |Tokens(line)| < 4 ==> r == Err(MissingToken)
    // a server is exactly tokens 1..3 of a 201 line
    ensures r.Ok? && r.value.Some? ==>
              var t := Tokens(line);
              && |t| >= 4 && t[0] == "201"
              && t[3] == TransportName(r.value.value.transport)
              && r.value.value.host == t[1]
              && ParseInt32(t[2]) == Ok(r.value.value.port)
    // and every 201 line with a tcp/udp fourth token and a valid port gives one
    ensures var t := Tokens(line);
            (|t| >= 4 && t[0] == "201" && (t[3] == "tcp" || t[3] == "udp") && ParseInt32(t[2]).Ok?)
            ==> r.Ok? && r.value.Some?
    // the port is only parsed, and so can only fail, on a tcp/udp line
    ensures r.Err? && r.error.BadPort? ==>
              var t := Tokens(line);
              |t| >= 4 && t[0] == "201" && (t[3] == "tcp" || t[3] == "udp")
    // any other fourth token contributes nothing
    ensures var t := Tokens(line);
            |t| >= 4 && t[0] == "201" && t[3] != "tcp" && t[3] != "udp" ==> r == Ok(None)
    // and a tcp/udp line whose port int.Parse rejects throws that exception
    ensures var t := Tokens(line);
            |t| >= 4 && t[0] == "201" && (t[3] == "tcp" || t[3] == "udp") && ParseInt32(t[2]).Err?
            ==> r == Err(BadPort(ParseInt32(t[2]).error))
  {
    var tokens := Tokens(line);
    if tokens[0] != "201" then Ok(None)
    else if |tokens| < 4 then Err(MissingToken)
    else if tokens[3] == "tcp" then Discovered(tokens[1], tokens[2], Tcp)
    else if tokens[3] == "udp" then Discovered(tokens[1], tokens[2], Udp)
    else Ok(None)
  }

  function Found(o: Option<Server>): seq<Server>
  {
    match o
    case None => []
    case Some(s) => [s]
  }

  /** The servers of a sequence of lines, in line order; the first line that
      throws ends the parse. */
  function ParseLines(lines: seq<string>): Result<seq<Server>, ParseError>
  {
    if |lines| == 0 then Ok([])
    else
      match ParseLine(lines[0])
      case Err(e) => Err(e)
      case Ok(o) =>
        match ParseLines(lines[1..])
        case Err(e) => Err(e)
        case Ok(rest) => Ok(Found(o) + rest)
  }

  /** The servers a response announces, or the exception Parse throws. */
  function Parse(response: string): (r: Result<seq<Server>, ParseError>)
    // every discovered port is one int.Parse accepted, so a 32-bit integer
    ensures r.Ok? ==> forall i :: 0 <= i < |r.value| ==> IsInt32(r.value[i].port)
  {
    ParseLinesPorts(Lines(response));
    ParseLines(Lines(response))
  }

  lemma {:induction false} ParseLinesPorts(lines: seq<string>)
    ensures ParseLines(lines).Ok? ==>
              forall i :: 0 <= i < |ParseLines(lines).value| ==> IsInt32(ParseLines(lines).value[i].port)
  {
    if |lines| > 0 && ParseLine(lines[0]).Ok? {
      ParseLinesPorts(lines[1..]);
    }
  }

  /** The name-server list after Parse: replaced wholesale by a non-empty
      discovery, kept otherwise; an exception leaves no list at all. */
  function ParseInto(nameServers: Option<seq<Server>>, response: string): (r: Result<Option<seq<Server>>, ParseError>)
    ensures r.Err? <==> Parse(response).Err?
    ensures r.Ok? ==> (r.value == nameServers || r.value == Some(Parse(response).value))
    ensures r.Ok? && r.value != nameServers ==> |Parse(response).value| > 0
    ensures r.Ok? && |Parse(response).value| > 0 ==> r.value == Some(Parse(response).value)
  {
    match Parse(response)
    case Err(e) => Err(e)
    case Ok(found) => Ok(if |found| > 0 then Some(found) else nameServers)
  }

  // ---------------------------------------------------------------------
  // Rendering: the reply lines a provider would send for a list of servers.

  predicate Lacks(c: char, s: string)
  {
    forall i :: 0 <= i < |s| ==> s[i] != c
  }

  /** A server a 201 line can carry: a host without space or CR and a port
      in the range of a C# int. */
  predicate WellFormed(s: Server)
  {
    IsInt32(s.port) && Lacks(' ', s.host) && Lacks('\r', s.host)
  }

  function FormatLine(s: Server): string
  {
    "201 " + s.host + " " + Decimal(s.port) + " " + TransportName(s.transport)
  }

  function Render(servers: seq<Server>): string
  {
    if |servers| == 0 then "" else FormatLine(servers[0]) + CRLF + Render(servers[1..])
  }

  // ---------------------------------------------------------------------
  // Lemmas

  lemma LacksFirst(sep: string, s: string)
    requires |sep| > 0 && Lacks(sep[0], s)
    ensures !Occurs(sep, s)
  {
    forall i | 0 <= i <= |s| - |sep| ensures !OccursAt(sep, s, i) {
      assert s[i..i + |sep|][0] == s[i];
    }
  }

  lemma CRLFUnbordered()
    ensures Unbordered(CRLF)
  {
    assert CRLF[..1] == "\r";
    assert CRLF[1..] == "\n";
  }

  /** Splitting on CRLF distributes over a CRLF between two responses. */
  lemma LinesAppend(a: string, b: string)
    ensures Lines(a + CRLF + b) == Lines(a) + Lines(b)
  {
    CRLFUnbordered();
    SplitAppend(a, b, CRLF);
    NonEmptyAppend(Split(a, CRLF), Split(b, CRLF));
  }

  /** A word without spaces, then a space, is the first token. */
  lemma TokensCons(a: string, rest: string)
    requires Lacks(' ', a)
    ensures Tokens(a + Space + rest) == [a] + Tokens(rest)
  {
    SplitAppend(a, rest, Space);
    LacksFirst(Space, a);
    SplitSeparatorFree(a, Space);
  }

  /** A word without spaces is a single token. */
  lemma TokensSingle(a: string)
    requires Lacks(' ', a)
    ensures Tokens(a) == [a]
  {
    LacksFirst(Space, a);
    SplitSeparatorFree(a, Space);
  }

  /** Two words without spaces, joined by one space, are two tokens. */
  lemma TokensAppend(a: string, b: string)
    requires Lacks(' ', a) && Lacks(' ', b)
    ensures Tokens(a + Space + b) == [a, b]
  {
    TokensCons(a, b);
    TokensSingle(b);
  }

  /** A non-empty line without CR is one line of its own. */
  lemma LinesSingle(l: string)
    requires l != "" && Lacks('\r', l)
    ensures Lines(l) == [l]
  {
    LacksFirst(CRLF, l);
    SplitSeparatorFree(l, CRLF);
  }

  lemma {:induction false} ParseLinesAppend(x: seq<string>, y: seq<string>)
    ensures ParseLines(x).Err? ==> ParseLines(x + y) == ParseLines(x)
    ensures ParseLines(x).Ok? && ParseLines(y).Err? ==> ParseLines(x + y) == ParseLines(y)
    ensures ParseLines(x).Ok? && ParseLines(y).Ok? ==>
              ParseLines(x + y) == Ok(ParseLines(x).value + ParseLines(y).value)
    decreases |x|
  {
    if |x| == 0 {
      assert x + y == y;
      assert ParseLines(x) == Ok([]);
      if ParseLines(y).Ok? {
        assert [] + ParseLines(y).value == ParseLines(y).value;
      }
    } else {
      assert (x + y)[0] == x[0];
      assert (x + y)[1..] == x[1..] + y;
      ParseLinesAppend(x[1..], y);
      if ParseLine(x[0]).Ok? && ParseLines(x[1..]).Ok? && ParseLines(y).Ok? {
        var f := Found(ParseLine(x[0]).value);
        assert f + (ParseLines(x[1..]).value + ParseLines(y).value)
            == (f + ParseLines(x[1..]).value) + ParseLines(y).value;
      }
    }
  }

  /** Parsing two responses joined by CRLF parses them in order: the servers
      of the first come first, and the first exception wins. */
  lemma ParseAppend(a: string, b: string)
    ensures Parse(a).Err? ==> Parse(a + CRLF + b) == Parse(a)
    ensures Parse(a).Ok? && Parse(b).Err? ==> Parse(a + CRLF + b) == Parse(b)
    ensures Parse(a).Ok? && Parse(b).Ok? ==>
              Parse(a + CRLF + b) == Ok(Parse(a).value + Parse(b).value)
  {
    LinesAppend(a, b);
    ParseLinesAppend(Lines(a), Lines(b));
  }

  /** A trailing CRLF adds nothing: a last line without one is still parsed. */
  lemma TerminatorOptional(s: string)
    ensures Parse(s + CRLF) == Parse(s)
  {
    LinesAppend(s, "");
    assert s + CRLF + "" == s + CRLF;
    assert Lines("") == [];
    assert Lines(s) + [] == Lines(s);
  }

  /** A blank line adds nothing. */
  lemma BlankLineIgnored(a: string, b: string)
    ensures Parse(a + CRLF + CRLF + b) == Parse(a + CRLF + b)
  {
    LinesAppend(a, CRLF + b);
    LinesAppend("", b);
    assert "" + CRLF + b == CRLF + b;
    assert a + CRLF + (CRLF + b) == a + CRLF + CRLF + b;
    assert Lines("") == [];
    LinesAppend(a, b);
  }

  /** The 102 request is one line whose tokens are the command, the user
      name and the password, when neither contains a space or a CR. */
  lemma QueryRequestFields(username: string, password: string)
    requires Lacks(' ', username) && Lacks('\r', username)
    requires Lacks(' ', password) && Lacks('\r', password)
    ensures Lines(QueryRequest(username, password)) == ["102 " + username + " " + password]
    ensures Tokens("102 " + username + " " + password) == ["102", username, password]
  {
    var line := "102 " + username + " " + password;
    assert QueryRequest(username, password) == line + CRLF + "";
    LinesAppend(line, "");
    assert Lacks('\r', line) by {
      assert line == "102 " + (username + " " + password);
    }
    LinesSingle(line);
    assert Lines("") == [];
    assert line == "102" + Space + (username + Space + password);
    assert Lacks(' ', "102");
    SplitAppend("102", username + Space + password, Space);
    SplitSeparatorFree("102", Space) by { LacksFirst(Space, "102"); }
    TokensAppend(username, password);
  }

  lemma DecimalLacks(n: int)
    ensures Lacks(' ', Decimal(n)) && Lacks('\r', Decimal(n))
  {
    var ds := Digits(if n < 0 then -n else n);
    assert forall i :: 0 <= i < |ds| ==> IsDigit(ds[i]);
  }

  /** The tokens of the 201 line of a well-formed server are its fields. */
  lemma FormatLineTokens(s: Server)
    requires WellFormed(s)
    ensures Tokens(FormatLine(s)) == ["201", s.host, Decimal(s.port), TransportName(s.transport)]
  {
    var port := Decimal(s.port);
    var name := TransportName(s.transport);
    DecimalLacks(s.port);
    assert Lacks(' ', name);
    assert Lacks(' ', "201");
    assert FormatLine(s) == "201" + Space + (s.host + Space + (port + Space + name));
    TokensAppend(port, name);
    TokensCons(s.host, port + Space + name);
    TokensCons("201", s.host + Space + (port + Space + name));
  }

  /** Parsing the 201 line of a well-formed server gives the server back. */
  lemma ParseFormatLine(s: Server)
    requires WellFormed(s)
    ensures ParseLine(FormatLine(s)) == Ok(Some(s))
  {
    FormatLineTokens(s);
    ParseDecimal(s.port);
    ParseServerLine(FormatLine(s), s.host, Decimal(s.port), s.transport);
  }

  lemma ParseServerLine(line: string, host: string, portText: string, t: Transport)
    requires Tokens(line) == ["201", host, portText, TransportName(t)]
    requires ParseInt32(portText).Ok?
    ensures ParseLine(line) == Ok(Some(Server(host, ParseInt32(portText).value, t)))
  {
  }

  /** The 201 line of a well-formed server is a single line. */
  lemma FormatLineIsLine(s: Server)
    requires WellFormed(s)
    ensures Lines(FormatLine(s)) == [FormatLine(s)]
  {
    var l := FormatLine(s);
    DecimalLacks(s.port);
    assert l == "201 " + (s.host + (" " + (Decimal(s.port) + (" " + TransportName(s.transport)))));
    assert Lacks('\r', l);
    LinesSingle(l);
  }

  lemma ParseCons(l: string, rest: string, s: Server, ss: seq<Server>)
    requires Lines(l) == [l] && ParseLine(l) == Ok(Some(s))
    requires Parse(rest) == Ok(ss)
    ensures Parse(l + CRLF + rest) == Ok([s] + ss)
  {
    ParseAppend(l, rest);
    assert [l][0] == l;
    assert [l][1..] == [];
    assert ParseLines([]) == Ok([]);
    assert Found(Some(s)) + [] == [s];
  }

  /** One rendered 201 line in front of a parsed reply adds its server in
      front. */
  lemma ParseRenderStep(servers: seq<Server>)
    requires |servers| > 0 && WellFormed(servers[0])
    requires Parse(Render(servers[1..])) == Ok(servers[1..])
    ensures Parse(Render(servers)) == Ok(servers)
  {
    var s := servers[0];
    FormatLineIsLine(s);
    ParseFormatLine(s);
    ParseCons(FormatLine(s), Render(servers[1..]), s, servers[1..]);
    assert [s] + servers[1..] == servers;
  }

  /** Parsing the rendered reply of well-formed servers gives them back, in
      order. */
  lemma {:induction false} ParseRender(servers: seq<Server>)
    requires forall i :: 0 <= i < |servers| ==> WellFormed(servers[i])
    ensures Parse(Render(servers)) == Ok(servers)
    decreases |servers|
  {
    if |servers| == 0 {
      assert Lines("") == [];
    } else {
      var rest := servers[1..];
      assert forall i :: 0 <= i < |rest| ==> WellFormed(rest[i]) by {
        forall i | 0 <= i < |rest| ensures WellFormed(rest[i]) {
          assert rest[i] == servers[i + 1];
        }
      }
      ParseRender(rest);
      ParseRenderStep(servers);
    }
  }

  /** The first line that throws decides the outcome, whatever follows it:
      Parse catches nothing. */
  lemma {:induction false} ParseLinesFirstError(lines: seq<string>, k: nat)
    requires k < |lines| && ParseLine(lines[k]).Err?
    requires forall i :: 0 <= i < k ==> ParseLine(lines[i]).Ok?
    ensures ParseLines(lines) == Err(ParseLine(lines[k]).error)
    decreases k
  {
    if k > 0 {
      var rest := lines[1..];
      assert ParseLine(lines[0]).Ok?;
      forall i | 0 <= i < k - 1 ensures ParseLine(rest[i]).Ok? {
        assert rest[i] == lines[i + 1];
      }
      assert rest[k - 1] == lines[k];
      ParseLinesFirstError(rest, k - 1);
    }
  }

  /** A 201 line with only three tokens throws on the missing fourth. */
  lemma ShortLineThrows(host: string, portText: string)
    requires Lacks(' ', host) && Lacks('\r', host)
    requires Lacks(' ', portText) && Lacks('\r', portText)
    ensures Parse("201 " + host + " " + portText + CRLF) == Err(MissingToken)
  {
    var line := "201 " + host + " " + portText;
    assert line + CRLF == "201 " + host + " " + portText + CRLF;
    assert line == "201" + Space + (host + Space + portText);
    assert Lacks(' ', "201");
    TokensAppend(host, portText);
    TokensCons("201", host + Space + portText);
    assert Lacks('\r', line) by {
      assert line == "201 " + (host + " " + portText);
    }
    LinesSingle(line);
    TerminatorOptional(line);
  }

  /** A 201 line of four words without spaces tokenises into them. */
  lemma ServerLineTokens(host: string, portText: string, name: string)
    requires Lacks(' ', host) && Lacks(' ', portText) && Lacks(' ', name)
    ensures Tokens("201 " + host + " " + portText + " " + name) == ["201", host, portText, name]
  {
    var line := "201 " + host + " " + portText + " " + name;
    assert line == "201" + Space + (host + Space + (portText + Space + name));
    assert Lacks(' ', "201");
    TokensAppend(portText, name);
    TokensCons(host, portText + Space + name);
    TokensCons("201", host + Space + (portText + Space + name));
  }

  /** A 201 line without CR is a line of its own. */
  lemma ServerLineIsLine(host: string, portText: string, name: string)
    requires Lacks('\r', host) && Lacks('\r', portText) && Lacks('\r', name)
    ensures var line := "201 " + host + " " + portText + " " + name;
            Parse(line + CRLF) == ParseLines([line])
  {
    var line := "201 " + host + " " + portText + " " + name;
    assert Lacks('\r', line) by {
      assert line == "201 " + (host + (" " + (portText + (" " + name))));
    }
    LinesSingle(line);
    TerminatorOptional(line);
  }

  /** A tcp or udp line whose port Int32.Parse rejects throws that
      exception. */
  lemma BadPortThrows(host: string, portText: string, t: Transport)
    requires Lacks(' ', host) && Lacks('\r', host)
    requires Lacks(' ', portText) && Lacks('\r', portText)
    requires ParseInt32(portText).Err?
    ensures Parse("201 " + host + " " + portText + " " + TransportName(t) + CRLF)
         == Err(BadPort(ParseInt32(portText).error))
  {
    var name := TransportName(t);
    assert Lacks(' ', name) && Lacks('\r', name);
    ServerLineTokens(host, portText, name);
    ServerLineIsLine(host, portText, name);
  }

  /** For example a port written as a word. */
  lemma WordPortThrows(host: string, t: Transport)
    requires Lacks(' ', host) && Lacks('\r', host)
    ensures Parse("201 " + host + " port " + TransportName(t) + CRLF) == Err(BadPort(FormatError))
  {
    NoDigitNoNumber("port");
    BadPortThrows(host, "port", t);
    assert "201 " + host + " " + "port" + " " + TransportName(t) + CRLF
        == "201 " + host + " port " + TransportName(t) + CRLF;
  }

  /** A one-server reply: the 201 line with an IPv4 address, the port in
      decimal and the udp transport. */
  lemma DiscoveryExample(reply: string)
    requires reply == "201 10.0.0.1 1053 udp\r\n"
    ensures Parse(reply) == Ok([Server("10.0.0.1", 1053, Udp)])
  {
    var s := Server("10.0.0.1", 1053, Udp);
    RenderExample();
    assert WellFormed(s);
    ParseRender([s]);
  }

  lemma RenderExample()
    ensures Render([Server("10.0.0.1", 1053, Udp)]) == "201 10.0.0.1 1053 udp\r\n"
  {
    var s := Server("10.0.0.1", 1053, Udp);
    var line := "201 10.0.0.1 1053 udp";
    FormatExample(s);
    assert Render([s]) == line + CRLF by {
      assert [s][1..] == [];
    }
    assert line + CRLF == "201 10.0.0.1 1053 udp\r\n";
  }

  lemma FormatExample(s: Server)
    requires s == Server("10.0.0.1", 1053, Udp)
    ensures FormatLine(s) == "201 10.0.0.1 1053 udp"
  {
    assert Digits(10) == "10";
    assert Digits(105) == "105";
    assert Decimal(1053) == "1053";
  }
}

=== FILE: results.dfy ===
/** Failure-carrying results, used wherever the modelled C# code throws an
    exception that nothing catches. */
module Results {

  /** Either a value or the exception the C# code throws. */
  datatype Result<+T, +E> = Ok(value: T) | Err(error: E)

  /** A value or its absence (a C# null). */
  datatype Option<+T> = None | Some(value: T)
}

=== FILE: settings.dfy ===
/** Where the two programs meet: the configuration window stores the
    obfuscated password as text, and the updater reads that text back and
    puts it unmodified into the 102 request string it hands to Send. */
module Settings {
  import opened Obfuscation
  import opened Protocol

  /** Code units outside the surrogate range read as characters. */
  function Text(u: seq<CodeUnit>): string
    requires forall k | 0 <= k < |u| :: u[k] < 0xD800
  {
    seq(|u|, k requires 0 <= k < |u| => u[k] as char)
  }

  /** For a password of at most 40 units the stored text is a single token
      of the 102 request: it has no space to split on and no CR to end the
      line early. */
  lemma StoredPasswordOneToken(username: string, password: seq<CodeUnit>, salt: Salt)
    requires Lacks(' ', username) && Lacks('\r', username)
    requires |password| + 2 <= |Keystream|
    ensures forall k | 0 <= k < |Obfuscated(password, salt)| :: Obfuscated(password, salt)[k] < 0xD800
    ensures var stored := Text(Obfuscated(password, salt));
            && Lines(QueryRequest(username, stored)) == ["102 " + username + " " + stored]
            && Tokens("102 " + username + " " + stored) == ["102", username, stored]
  {
    ShortPrintable(Keystream, password, salt);
    var stored := Text(Obfuscated(password, salt));
    assert Lacks(' ', stored) && Lacks('\r', stored);
    QueryRequestFields(username, stored);
  }
}

=== FILE: split.dfy ===
/** String.Split with a string separator, as .NET performs it: the input is
    scanned from the left and every occurrence of the separator that starts
    where no earlier occurrence overlaps it ends a part. */
module Splitting {

  /** True when `s` begins with `sep`. */
  predicate StartsWith(s: string, sep: string)
  {
    |sep| <= |s| && s[..|sep|] == sep
  }

  /** True when `sep` occurs in `s` starting at index `i`. */
  predicate OccursAt(sep: string, s: string, i: int)
  {
    0 <= i <= |s| && StartsWith(s[i..], sep)
  }

  /** True when `sep` occurs anywhere inside `s`. */
  predicate Occurs(sep: string, s: string)
  {
    exists i | 0 <= i <= |s| :: OccursAt(sep, s, i)
  }

  /** A separator with no proper prefix that is also a suffix ("\r\n" and " "
      are such separators): an occurrence of it can never straddle the end of
      a part and the start of the next separator. */
  predicate Unbordered(sep: string)
  {
    forall k :: 0 < k < |sep| ==> sep[..k] != sep[|sep| - k..]
  }

  /** The parts with `c` put in front of the first one. */
  function Prepend(c: char, parts: seq<string>): seq<string>
    requires |parts| >= 1
  {
    [[c] + parts[0]] + parts[1..]
  }

  /** The parts of `s` between occurrences of `sep`, empty parts kept
      (StringSplitOptions.None). */
  function Split(s: string, sep: string): (parts: seq<string>)
    requires |sep| > 0
    ensures |parts| >= 1
    decreases |s|
  {
    if |s| < |sep| then [s]
    else if StartsWith(s, sep) then [""] + Split(s[|sep|..], sep)
    else Prepend(s[0], Split(s[1..], sep))
  }

  /** The parts, glued back together with the separator between them. */
  function Join(parts: seq<string>, sep: string): string
  {
    if |parts| == 0 then ""
    else if |parts| == 1 then parts[0]
    else parts[0] + sep + Join(parts[1..], sep)
  }

  /** The parts that are not empty, in their original order
      (StringSplitOptions.RemoveEmptyEntries). */
  function NonEmpty(parts: seq<string>): (r: seq<string>)
    ensures |r| <= |parts|
    ensures forall i :: 0 <= i < |r| ==> r[i] != "" && r[i] in parts
    ensures forall p :: p in parts && p != "" ==> p in r
  {
    if |parts| == 0 then []
    else if parts[0] == "" then NonEmpty(parts[1..])
    else [parts[0]] + NonEmpty(parts[1..])
  }

  lemma NonEmptyAppend(a: seq<string>, b: seq<string>)
    ensures NonEmpty(a + b) == NonEmpty(a) + NonEmpty(b)
  {
    if |a| > 0 {
      assert (a + b)[1..] == a[1..] + b;
    } else {
      assert a + b == b;
    }
  }

  lemma JoinPrepend(c: char, parts: seq<string>, sep: string)
    requires |parts| >= 1
    ensures Join(Prepend(c, parts), sep) == [c] + Join(parts, sep)
  {
    var r := Prepend(c, parts);
    if |parts| > 1 {
      assert Join(r, sep) == r[0] + sep + Join(parts[1..], sep);
    }
  }

  /** Splitting and joining again gives back the input: no character is lost
      or invented by the split. */
  lemma {:induction false} JoinSplit(s: string, sep: string)
    requires |sep| > 0
    ensures Join(Split(s, sep), sep) == s
    decreases |s|
  {
    if |s| < |sep| {
    } else if StartsWith(s, sep) {
      JoinSplit(s[|sep|..], sep);
      JoinAfterSeparator(s, sep);
    } else {
      JoinSplit(s[1..], sep);
      JoinAfterChar(s, sep);
    }
  }

  lemma JoinAfterSeparator(s: string, sep: string)
    requires |sep| > 0 && StartsWith(s, sep)
    requires Join(Split(s[|sep|..], sep), sep) == s[|sep|..]
    ensures Join(Split(s, sep), sep) == s
  {
    var rest := Split(s[|sep|..], sep);
    SplitAtSeparator(s, sep);
    JoinCons("", rest, sep);
    assert s == sep + s[|sep|..];
  }

  lemma SplitAtSeparator(s: string, sep: string)
    requires |sep| > 0 && StartsWith(s, sep)
    ensures Split(s, sep) == [""] + Split(s[|sep|..], sep)
  {
  }

  lemma JoinCons(a: string, rest: seq<string>, sep: string)
    requires |rest| >= 1
    ensures Join([a] + rest, sep) == a + sep + Join(rest, sep)
  {
    assert ([a] + rest)[1..] == rest;
  }

  lemma JoinAfterChar(s: string, sep: string)
    requires |sep| > 0 && |s| >= |sep| && !StartsWith(s, sep)
    requires Join(Split(s[1..], sep), sep) == s[1..]
    ensures Join(Split(s, sep), sep) == s
  {
    JoinPrepend(s[0], Split(s[1..], sep), sep);
    assert [s[0]] + s[1..] == s;
  }

  /** The first part is a prefix of the input. */
  lemma FirstPartIsPrefix(s: string, sep: string)
    requires |sep| > 0
    ensures Split(s, sep)[0] <= s
  {
    var parts := Split(s, sep);
    JoinSplit(s, sep);
    if |parts| == 1 {
      assert s == parts[0];
    } else {
      assert parts == [parts[0]] + parts[1..];
      JoinCons(parts[0], parts[1..], sep);
      PrefixOfAppend(parts[0], sep + Join(parts[1..], sep));
    }
  }

  lemma PrefixOfAppend(a: string, b: string)
    ensures a <= a + b
  {
    assert (a + b)[..|a|] == a;
  }

  /** The head of a part that did not start with the separator cannot hold
      an occurrence at its first index. */
  lemma PrependFree(s: string, sep: string, first: string)
    requires |sep| > 0 && |s| >= 1 && !StartsWith(s, sep)
    requires first <= s[1..] && !Occurs(sep, first)
    ensures !Occurs(sep, [s[0]] + first)
  {
    var head := [s[0]] + first;
    assert head <= s;
    forall i | 0 <= i <= |head| ensures !OccursAt(sep, head, i) {
      if i == 0 {
        if |sep| <= |head| {
          assert head[..|sep|] == s[..|sep|];
        }
      } else {
        assert head[i..] == first[i - 1..];
        assert !OccursAt(sep, first, i - 1);
      }
    }
  }

  /** No part contains the separator. */
  lemma {:induction false} PartsAreSeparatorFree(s: string, sep: string)
    requires |sep| > 0
    ensures forall p :: p in Split(s, sep) ==> !Occurs(sep, p)
    decreases |s|
  {
    if |s| < |sep| {
      forall i | 0 <= i <= |s| ensures !OccursAt(sep, s, i) { }
    } else if StartsWith(s, sep) {
      PartsAreSeparatorFree(s[|sep|..], sep);
      assert !OccursAt(sep, "", 0);
    } else {
      var rest := Split(s[1..], sep);
      PartsAreSeparatorFree(s[1..], sep);
      FirstPartIsPrefix(s[1..], sep);
      assert rest[0] in rest;
      PrependFree(s, sep, rest[0]);
      forall p | p in rest[1..] ensures !Occurs(sep, p) {
        assert p in rest;
      }
    }
  }

  /** A string without the separator is a single part. */
  lemma {:induction false} SplitSeparatorFree(x: string, sep: string)
    requires |sep| > 0
    requires !Occurs(sep, x)
    ensures Split(x, sep) == [x]
    decreases |x|
  {
    if |x| >= |sep| {
      assert !OccursAt(sep, x, 0);
      forall i | 0 <= i <= |x[1..]| ensures !OccursAt(sep, x[1..], i) {
        assert x[1..][i..] == x[i + 1..];
        assert !OccursAt(sep, x, i + 1);
      }
      SplitSeparatorFree(x[1..], sep);
      assert [x[0]] + x[1..] == x;
    }
  }

  /** With an unbordered separator, splitting `a + sep + b` splits `a` and `b`
      independently: the separator in the middle ends exactly one part. */
  lemma {:induction false} SplitAppend(a: string, b: string, sep: string)
    requires |sep| > 0
    requires Unbordered(sep)
    ensures Split(a + sep + b, sep) == Split(a, sep) + Split(b, sep)
    decreases |a|
  {
    if |a| == 0 {
      SplitAppendEmpty(b, sep);
    } else if StartsWith(a, sep) {
      SplitAppend(a[|sep|..], b, sep);
      SplitAppendSeparator(a, b, sep);
    } else {
      SplitAppend(a[1..], b, sep);
      SplitAppendChar(a, b, sep);
    }
  }

  lemma SplitAppendEmpty(b: string, sep: string)
    requires |sep| > 0
    ensures Split([] + sep + b, sep) == Split([], sep) + Split(b, sep)
  {
    var s := [] + sep + b;
    assert s[..|sep|] == sep;
    assert s[|sep|..] == b;
  }

  lemma SplitAppendSeparator(a: string, b: string, sep: string)
    requires |sep| > 0 && StartsWith(a, sep)
    requires Split(a[|sep|..] + sep + b, sep) == Split(a[|sep|..], sep) + Split(b, sep)
    ensures Split(a + sep + b, sep) == Split(a, sep) + Split(b, sep)
  {
    var s := a + sep + b;
    assert s[..|sep|] == a[..|sep|];
    assert s[|sep|..] == a[|sep|..] + sep + b;
  }

  lemma SplitAppendChar(a: string, b: string, sep: string)
    requires |sep| > 0 && Unbordered(sep) && |a| > 0 && !StartsWith(a, sep)
    requires Split(a[1..] + sep + b, sep) == Split(a[1..], sep) + Split(b, sep)
    ensures Split(a + sep + b, sep) == Split(a, sep) + Split(b, sep)
  {
    var s := a + sep + b;
    if |a| < |sep| {
      NoStraddle(a, b, sep);
    } else {
      assert s[..|sep|] == a[..|sep|];
    }
    assert s[1..] == a[1..] + sep + b;
    PrependAppend(a[0], Split(a[1..], sep), Split(b, sep));
    if |a| < |sep| {
      assert Split(a[1..], sep) == [a[1..]];
      assert [a[0]] + a[1..] == a;
    }
  }

  lemma PrependAppend(c: char, ra: seq<string>, rb: seq<string>)
    requires |ra| >= 1
    ensures Prepend(c, ra + rb) == Prepend(c, ra) + rb
  {
    assert (ra + rb)[1..] == ra[1..] + rb;
  }

  /** An unbordered separator placed after a short non-empty `a` does not
      occur at the start of `a + sep + b`. */
  lemma NoStraddle(a: string, b: string, sep: string)
    requires 0 < |a| < |sep|
    requires Unbordered(sep)
    ensures !StartsWith(a + sep + b, sep)
  {
    var s := a + sep + b;
    var k := |sep| - |a|;
    assert s[|a|..|sep|] == sep[..k];
    assert s[..|sep|][|a|..] == s[|a|..|sep|];
    assert sep[..k] != sep[|sep| - k..];
  }
}
